=== FILE: README.md ===
# Observable property store

This project models `ObservablePropertyManager`, the observable property store at the heart of
zenframework. The store keeps two maps keyed by integer property id:

- `mapOfFieldValues` maps each id to its current value.
- `mapOfFieldObservers` maps each id to the ordered list of listeners bound to it.

Every change is handed to a main-thread `Handler`, with one posted runnable per observer.

The model is a pure state machine:

- `PropertyManager.Store` holds the two maps and a FIFO `posted` of the `onChange` calls given to the
  handler. Running those calls is up to the host and never feeds back into the store.
- `PropertyManager.AddObserver`, `RemoveObserver`, `GetValue`, `GetValueAsBoolean`, `ValueEquals` and
  `SetValue` are the manager's public operations, written as functions.
- A listener (`Observable.Listener`) is a value carrying an identity, a name and its bound property id.
- A value (`Observable.Value`) is a tagged boolean, integer or string, so `equals` is value equality.
- Java `null` is `Wrappers.None`.
- The synchronous catch-up call made during registration is returned as `Registration.catchUp`.
- The `IllegalArgumentException` thrown by `setValue` is `SetOutcome.thrown`.

The code tests presence with `SparseArray.indexOfKey(id) > 0`. `indexOfKey` returns a slot in the sorted
key array, so this test misses the smallest key of the map. The test is used at three places: the
observer lookup during registration, the equality check in `setValue`, and the notification step of
`setValue`. Every operation that performs such a lookup takes a `SparseKeys.Lookup`:

- `AsWritten` is the code's `> 0` test, which is the predicate `Present(m, k)`: `k` is stored and some
  smaller key is stored too.
- `Intended` is `>= 0`, plain membership.

The store's documented behaviour is to create a list only when none exists and to suppress only unchanged
values. The code differs from this at the smallest key. The model follows the code, and the documented
behaviour is the `Intended` lookup. The clean properties are stated under the hypothesis that the lookup
finds the key. The
smallest-key behaviour is stated separately under "## Findings". The lifecycle glue in
`AppData.java` and the connection registry in `DBManager.java` are not part of this model.

## Model

| member | source | states |
|---|---|---|
| SparseKeys.IndexOfKey | src/zen/core/observableprops/ObservablePropertyManager.java:90 | `SparseArray.indexOfKey` gives a slot inside the key array for a stored key. For a missing key it gives a negative value whose complement is an insertion point at most one past the end. |
| SparseKeys.SmallerKeyIsSlot | src/zen/core/observableprops/ObservablePropertyManager.java:90 | A key smaller than `k` is stored exactly when the slot `indexOfKey` gives `k` is not 0. |
| SparseKeys.Present | src/zen/core/observableprops/ObservablePropertyManager.java:90 | The predicate the store's lookup applies (`k` stored and some smaller key stored) holds exactly when `indexOfKey(k) > 0`. |
| SparseKeys.Found | src/zen/core/observableprops/ObservablePropertyManager.java:219 | The as-written lookup holds exactly when `indexOfKey(k) > 0`, and the intended lookup holds exactly when `indexOfKey(k) >= 0`. |
| SparseKeys.AsWrittenMissesOnlySmallest | src/zen/core/observableprops/ObservablePropertyManager.java:226 | The as-written lookup misses a stored key exactly when it is the least key of the map. |
| Lists.RemoveFirst | src/zen/core/observableprops/ObservablePropertyManager.java:147 | `ArrayList.remove(Object)` leaves the list unchanged when the element is absent, and otherwise makes it exactly one element shorter. |
| Lists.RemoveFirstMultiset | src/zen/core/observableprops/ObservablePropertyManager.java:147 | `remove` takes out exactly one copy of the element, as a multiset, and nothing else. |
| Lists.RemoveFirstCutsFirstIndex | src/zen/core/observableprops/ObservablePropertyManager.java:147 | The copy removed is the first occurrence: the result is the list with that one slot cut out. |
| Lists.RemoveFirstDistinct | src/zen/core/observableprops/ObservablePropertyManager.java:147 | On a list without duplicates, removal leaves no copy of the element and still has no duplicates. |
| Lists.RemoveFirstShrinks | src/zen/core/observableprops/ObservablePropertyManager.java:147 | Removal never introduces an element: everything in the result was in the list. |
| Lists.RemoveFirstUndoesAppend | src/zen/core/observableprops/ObservablePropertyManager.java:102 | Removing an element just appended to a list that lacked it gives back the original list. |
| Lists.AppendFreshDistinct | src/zen/core/observableprops/ObservablePropertyManager.java:98-102 | The duplicate check before `add` keeps a duplicate-free list duplicate-free. |
| PropertyManager.GetValue | src/zen/core/observableprops/ObservablePropertyManager.java:162-164 | A stored value takes precedence over the default. The result is null only when the id is unset and the default is null. |
| PropertyManager.GetValueAsBoolean | src/zen/core/observableprops/ObservablePropertyManager.java:172-179 | The result is true exactly when the id holds the boolean `true`. An unset id or a value of another type reads as false. |
| PropertyManager.ValueEquals | src/zen/core/observableprops/ObservablePropertyManager.java:187-192 | The result is false when the effective value is null or `compareTo` is null. Otherwise it is value equality with the stored value, or with the default when the id is unset. |
| PropertyManager.AddObserver | src/zen/core/observableprops/ObservablePropertyManager.java:77-129 | The same observer is always returned. A null or duplicate observer changes nothing and gets no catch-up. A fresh observer goes at the end of its property's retained list, and every other id is untouched. When the lookup misses, the list becomes just the new observer. Exactly one catch-up `onChange(id, getValue(id, default))` fires, and only when that value is non-null. Values and the handler queue are never touched. |
| PropertyManager.RemoveObserver | src/zen/core/observableprops/ObservablePropertyManager.java:143-148 | Only the first occurrence is removed, and only from the list of the observer's bound id. A null observer or a missing list changes nothing. The set of ids with lists, the values and the handler queue are unchanged. |
| PropertyManager.Notifications | src/zen/core/observableprops/ObservablePropertyManager.java:228-251 | One round posts one call per observer-list entry, in list order, each with the id and the new value. |
| PropertyManager.SetValue | src/zen/core/observableprops/ObservablePropertyManager.java:208-260 | A null value throws `IllegalArgument` and leaves the store unchanged. A value that the lookup finds already stored and equal changes nothing. Otherwise the id maps to the new value and nothing else changes in the value map. The observer lists are never touched. The handler queue keeps its prefix. It grows by exactly one `(observer, id, value)` per entry of the found observer list, in order, and otherwise not at all. |
| StoreProperties.EmptyValid | src/zen/core/observableprops/ObservablePropertyManager.java:42-54 | A newly constructed manager satisfies the store invariant. |
| StoreProperties.AddPreservesValid | src/zen/core/observableprops/ObservablePropertyManager.java:98-102 | Registration keeps every list bound to its own id and free of duplicates, under either lookup. |
| StoreProperties.RemovePreservesValid | src/zen/core/observableprops/ObservablePropertyManager.java:143-148 | Removal keeps every list bound to its id and free of duplicates. |
| StoreProperties.RemoveUndoesFreshAdd | src/zen/core/observableprops/ObservablePropertyManager.java:143-148 | Registering a fresh observer into a found list and then removing it restores the exact prior store. |
| StoreProperties.RepeatedRegistrationIsNoOp | src/zen/core/observableprops/ObservablePropertyManager.java:98-99 | Once the lookup finds the list, registering the same observer again returns it, changes nothing and fires no catch-up. |
| StoreProperties.RemovedFromEveryList | src/zen/core/observableprops/ObservablePropertyManager.java:143-148 | After removal from a valid store, the observer is in no observer list at all. |
| StoreProperties.StepSkipsUnlisted | src/zen/core/observableprops/ObservablePropertyManager.java:90-251 | One call that does not register a listener absent from every list posts nothing to it and keeps it absent. The queue only grows at its end. |
| StoreProperties.CallsSkipUnlisted | src/zen/core/observableprops/ObservablePropertyManager.java:143-251 | Any sequence of calls that never registers a listener absent from every list never posts a call to it and keeps it absent. The queue only grows at its end. |
| StoreProperties.RemovalStopsNotifications | src/zen/core/observableprops/ObservablePropertyManager.java:143-148 | After removal from a valid store, no later `setValue` posts a call to the removed observer. This holds through any sequence of calls that does not register it again, including registrations and removals of other listeners. |
| StoreProperties.ReadAfterWrite | src/zen/core/observableprops/ObservablePropertyManager.java:224 | After a non-null `setValue(id, v)`, `getValue(id, d)` is `v` for every default, whether or not observers exist. Other ids read as before, and the observer lists are unchanged. |
| StoreProperties.CatchUpSeesLatestValue | src/zen/core/observableprops/ObservablePropertyManager.java:108-112 | An observer registered fresh after `setValue(id, x)` gets the catch-up `onChange(id, x)` whatever default it passes. |
| StoreProperties.RepeatedSetIsSilent | src/zen/core/observableprops/ObservablePropertyManager.java:218-220 | Once the lookup finds the value just written, the same write again changes nothing and posts nothing. |
| StoreProperties.BooleanReadIsValueEquals | src/zen/core/observableprops/ObservablePropertyManager.java:172-192 | `getValueAsBoolean(id)` agrees with `valueEquals(id, TRUE, FALSE)`. |
| StoreProperties.RunKeepsInvariants | src/zen/core/observableprops/ObservablePropertyManager.java:42-50 | Over any sequence of calls, the store stays valid. No property returns to unset. The handler queue only grows at its end. |
| Findings.AsWrittenLeastListReplaced | src/zen/core/observableprops/ObservablePropertyManager.java:90-95 | As written, registering an observer whose id is the least id with a list replaces that whole list by the observer alone. |
| Findings.AsWrittenRegistrationDropsObserver | src/zen/core/observableprops/ObservablePropertyManager.java:90-95 | As written, from a new manager, registering A on property 5 and then B on property 5 leaves the list for 5 as `[B]`. |
| Findings.IntendedRegistrationKeepsObservers | src/zen/core/observableprops/ObservablePropertyManager.java:90-102 | With `>= 0`, registration never drops an observer already registered for any id. |
| Findings.AsWrittenDuplicateRegistrationNotDetected | src/zen/core/observableprops/ObservablePropertyManager.java:90-110 | As written, re-registering an observer already in the list of the least observed id is not detected. The list becomes the observer alone, and a catch-up fires exactly when the effective value is non-null. |
| Findings.AsWrittenDuplicateRegistrationRefires | src/zen/core/observableprops/ObservablePropertyManager.java:90-99 | As written, after a write to property 5 of a new manager, registering A on 5 twice fires two catch-ups and leaves the list as `[A]`. The duplicate check never sees the first copy. |
| Findings.IntendedRepeatedRegistrationIsNoOp | src/zen/core/observableprops/ObservablePropertyManager.java:98-99 | With `>= 0`, registering the same observer a second time always returns it, changes nothing and fires no catch-up. |
| Findings.AsWrittenRepeatedSetNotifiesAgain | src/zen/core/observableprops/ObservablePropertyManager.java:219-226 | As written, take an id whose observer list is found but which is the least stored value id. Writing the same value to it a second time posts the whole round of notifications again. |
| Findings.AsWrittenRepeatedSetNotifiesTwice | src/zen/core/observableprops/ObservablePropertyManager.java:219-220 | As written, from a new manager, registering C on 1 and A on 5 and then writing "x" to 5 twice notifies A twice. |
| Findings.IntendedRepeatedSetIsSilent | src/zen/core/observableprops/ObservablePropertyManager.java:218-220 | With `>= 0`, a second identical `setValue` changes nothing and posts nothing. |
| Findings.AsWrittenSmallestIdNeverNotified | src/zen/core/observableprops/ObservablePropertyManager.java:226 | As written, a write to an id no larger than any id with observers posts nothing. So a store with observers for one property only never notifies them. |
| Findings.AsWrittenScenario | src/zen/core/observableprops/ObservablePropertyManager.java:226 | As written, from a new manager, registering C on property 1 and then writing "hello" to it posts nothing. |
| Findings.IntendedScenario | src/zen/core/observableprops/ObservablePropertyManager.java:226-251 | With `>= 0`, a run goes as follows. A registration with no value and a null default fires nothing. The first write notifies once. A repeated write notifies nobody. A new value notifies once more. |

## Left out

- `AppData.java` is not part of this model. It holds Android application lifecycle glue, handler
  construction, and reflection over generated resource ids. None of these is a computation of the store.
- `DBManager.java` is not part of this model. It is a name-to-connection registry over database classes
  that are not available here, and its work is I/O.
- `ObservablePropertyListener` is represented by the `Listener` datatype, not modelled as code. Its
  `onChange` is an emitted `Notification`. Exceptions thrown by a listener are caught and logged at
  lines 114-121 and 234-241, so they have no effect on the store. As a result, one listener's failure
  cannot stop another's notification.
- Running the posted runnables on the main thread and thread scheduling are not modelled. Posting is appending to `Store.posted`. The source takes no lock: concurrent callers race on the maps and the observer lists. The model treats calls as happening one at a time.
  Posting is appending to `Store.posted`.
- Logging is not modelled.
- The generic `catch (Exception)` fallbacks at lines 131-138, 149-155, 166-167 and 262-268 are not
  modelled. No input of the model raises a runtime fault there.
- Values other than booleans, integers and strings are not modelled. The store keeps any `Object`, and the suppression at line 220 calls that object's own `equals`. The model compares values structurally. Two Java behaviours are therefore lost. First, when a value's `equals` is identity, writing a distinct object with equal content again is not suppressed in Java, but it is suppressed here. Second, when a mutable value is changed in place and written again through the same reference, Java compares the object with itself and silently suppresses the write, posting nothing. A model value cannot be changed in place.
- Listener equality is datatype equality on `(uid, name, propertyId)`. `uid` stands for Java object
  identity, which the default `equals` uses.

## Findings

| source | as written | input that shows it | evidently intended | confidence | as-written member | corrected member |
|---|---|---|---|---|---|---|
| src/zen/core/observableprops/ObservablePropertyManager.java:90 | `indexOfKey(propertyId) > 0` misses the smallest key, so its observer list is replaced by a new empty one | new manager; register A bound to 5; register B bound to 5 | `>= 0`: keep the existing list and append B | high; not executed | Findings.AsWrittenLeastListReplaced | Findings.IntendedRegistrationKeepsObservers |
| src/zen/core/observableprops/ObservablePropertyManager.java:98-99 | the duplicate check looks in the list that the `> 0` lookup retained, which is a new empty list for the least observed id, so a repeat registration there is not seen as a duplicate and fires a second catch-up when the effective value is non-null | new manager; `setValue(5, 3)`; register A bound to 5 twice | `>= 0`: the second registration is a no-op with no catch-up | high; not executed | Findings.AsWrittenDuplicateRegistrationNotDetected | Findings.IntendedRepeatedRegistrationIsNoOp |
| src/zen/core/observableprops/ObservablePropertyManager.java:219 | the equality check is skipped for the smallest stored value id, so an unchanged value is re-broadcast whenever that id's observer list is found | new manager; register C bound to 1 and A bound to 5; `setValue(5, "x")` twice | `>= 0`: the second write is suppressed | high; not executed | Findings.AsWrittenRepeatedSetNotifiesAgain | Findings.IntendedRepeatedSetIsSilent |
| src/zen/core/observableprops/ObservablePropertyManager.java:226 | notification is skipped for the smallest id with observers | new manager; register C bound to 1; `setValue(1, "hello")` posts nothing | `>= 0`: C is notified once | high; not executed | Findings.AsWrittenSmallestIdNeverNotified | Findings.IntendedScenario |

=== FILE: findings.dfy ===
/** The store tests `indexOfKey(id) > 0` where `>= 0` was meant, so the
    smallest key of each map is treated as absent. For each place the test
    is used, the lemmas below state what the code as written does, both in
    general over every store and in a concrete run from a new manager, and
    what the corrected test gives instead. */
module Findings {
  import opened Wrappers
  import opened SparseKeys
  import opened Observable
  import opened PropertyManager

  /** Two listeners bound to property 5, and one bound to property 1. */
  const A: Listener := Listener(1, "a", 5)
  const B: Listener := Listener(2, "b", 5)
  const C: Listener := Listener(3, "c", 1)

  /** As written, registering an observer whose id is the least id with a
      list replaces that whole list by the observer alone. */
  lemma AsWrittenLeastListReplaced(s: Store, o: Listener, default: Option<Value>)
    requires o.propertyId in s.observers
    requires forall k :: k in s.observers ==> o.propertyId <= k
    ensures AddObserver(AsWritten, s, Some(o), default).store.observers[o.propertyId] == [o]
  {
  }

  /** As written, from a new manager: register A on property 5, then B on
      property 5, and the list for 5 holds B alone. */
  lemma AsWrittenRegistrationDropsObserver()
    ensures
      var s1 := AddObserver(AsWritten, Empty, Some(A), None).store;
      var s2 := AddObserver(AsWritten, s1, Some(B), None).store;
      s1.observers[5] == [A] && s2.observers[5] == [B]
  {
  }

  /** With the corrected test, registration never loses an observer that
      was already registered, for any property. */
  lemma IntendedRegistrationKeepsObservers(s: Store, observer: Option<Listener>, default: Option<Value>)
    ensures
      var r := AddObserver(Intended, s, observer, default).store;
      forall k, l :: k in s.observers && l in s.observers[k] ==> k in r.observers && l in r.observers[k]
  {
  }

  /** As written, registering again an observer already in the list of the
      least observed id is not seen as a duplicate: the list becomes the
      observer alone, and a catch-up fires whenever the effective value is
      non-null. */
  lemma AsWrittenDuplicateRegistrationNotDetected(s: Store, o: Listener, default: Option<Value>)
    requires o.propertyId in s.observers && o in s.observers[o.propertyId]
    requires forall k :: k in s.observers ==> o.propertyId <= k
    ensures
      var r := AddObserver(AsWritten, s, Some(o), default);
      && r.store.observers[o.propertyId] == [o]
      && (r.catchUp.Some? <==> GetValue(s, o.propertyId, default).Some?)
  {
  }

  /** As written, from a new manager: write 3 to property 5, then register
      A on property 5 twice; both registrations fire a catch-up and the list
      for 5 is `[A]`. */
  lemma AsWrittenDuplicateRegistrationRefires()
    ensures
      var s0 := SetValue(AsWritten, Empty, 5, Some(VInt(3))).store;
      var r1 := AddObserver(AsWritten, s0, Some(A), None);
      var r2 := AddObserver(AsWritten, r1.store, Some(A), None);
      && r1.catchUp == Some(Notification(A, 5, VInt(3)))
      && r2.catchUp == Some(Notification(A, 5, VInt(3)))
      && r2.store.observers[5] == [A]
  {
  }

  /** With the corrected test, registering the same observer twice is always
      a no-op the second time: no second entry and no second catch-up. */
  lemma IntendedRepeatedRegistrationIsNoOp(s: Store, o: Listener, d1: Option<Value>, d2: Option<Value>)
    ensures
      var s1 := AddObserver(Intended, s, Some(o), d1).store;
      AddObserver(Intended, s1, Some(o), d2) == Registration(s1, Some(o), None)
  {
  }

  /** As written, when a property's id is found among the observer lists
      but is the least stored value id, writing the same value to it a
      second time posts the whole round of notifications again. */
  lemma AsWrittenRepeatedSetNotifiesAgain(s: Store, id: int, v: Value)
    requires Found(AsWritten, s.observers, id)
    requires forall k :: k in s.values ==> id <= k
    ensures
      var s1 := SetValue(AsWritten, s, id, Some(v)).store;
      SetValue(AsWritten, s1, id, Some(v)).store.posted
        == s1.posted + Notifications(s.observers[id], id, v)
  {
  }

  /** As written, from a new manager: register C on property 1 and A on
      property 5, write "x" to property 5 twice, and A is notified twice. */
  lemma AsWrittenRepeatedSetNotifiesTwice()
    ensures
      var s1 := AddObserver(AsWritten, Empty, Some(C), None).store;
      var s2 := AddObserver(AsWritten, s1, Some(A), None).store;
      var s3 := SetValue(AsWritten, s2, 5, Some(VStr("x"))).store;
      var s4 := SetValue(AsWritten, s3, 5, Some(VStr("x"))).store;
      s4.posted == [Notification(A, 5, VStr("x")), Notification(A, 5, VStr("x"))]
  {
    var s1 := AddObserver(AsWritten, Empty, Some(C), None).store;
    var s2 := AddObserver(AsWritten, s1, Some(A), None).store;
    assert s2.observers == map[1 := [C], 5 := [A]];
    assert Found(AsWritten, s2.observers, 5) by {
      assert 1 in s2.observers.Keys && 1 < 5;
    }
    var s3 := SetValue(AsWritten, s2, 5, Some(VStr("x"))).store;
    assert !Found(AsWritten, s3.values, 5);
  }

  /** With the corrected test, a second identical write is always silent. */
  lemma IntendedRepeatedSetIsSilent(s: Store, id: int, v: Value)
    ensures
      var s1 := SetValue(Intended, s, id, Some(v)).store;
      SetValue(Intended, s1, id, Some(v)) == SetOutcome(s1, None)
  {
  }

  /** As written, a write to the smallest id that has observers never posts
      anything; in particular a store with observers for one property only
      never notifies them. */
  lemma AsWrittenSmallestIdNeverNotified(s: Store, id: int, v: Value)
    requires forall k :: k in s.observers ==> id <= k
    ensures SetValue(AsWritten, s, id, Some(v)).store.posted == s.posted
  {
  }

  /** As written, from a new manager: register C on property 1, write
      "hello" to it, and nothing is posted. */
  lemma AsWrittenScenario()
    ensures
      var s1 := AddObserver(AsWritten, Empty, Some(C), None).store;
      var s2 := SetValue(AsWritten, s1, 1, Some(VStr("hello"))).store;
      s2.posted == []
  {
  }

  /** With the corrected test: registering with no value and a null default
      fires no catch-up; the first write notifies once; the same write again
      notifies nobody; a different value notifies once more. */
  lemma IntendedScenario()
    ensures
      var r := AddObserver(Intended, Empty, Some(C), None);
      var s2 := SetValue(Intended, r.store, 1, Some(VStr("hello"))).store;
      var s3 := SetValue(Intended, s2, 1, Some(VStr("hello"))).store;
      var s4 := SetValue(Intended, s3, 1, Some(VStr("world"))).store;
      && r.catchUp == None
      && s2.posted == [Notification(C, 1, VStr("hello"))]
      && s3.posted == s2.posted
      && s4.posted == [Notification(C, 1, VStr("hello")), Notification(C, 1, VStr("world"))]
  {
  }
}

=== FILE: lists.dfy ===
/** The parts of `java.util.ArrayList` the store relies on: `contains` is
    sequence membership, `add` appends, and `remove(Object)` drops the first
    element equal to its argument. */
module Lists {

  /** No element occurs twice. */
  predicate Distinct<T(==)>(xs: seq<T>) {
    forall i, j :: 0 <= i < j < |xs| ==> xs[i] != xs[j]
  }

  /** The position of the first occurrence of `x` in `xs`. */
  function FirstIndex<T(==)>(xs: seq<T>, x: T): (i: nat)
    requires x in xs
    ensures i < |xs| && xs[i] == x
    ensures x !in xs[..i]
  {
    if xs[0] == x then 0 else 1 + FirstIndex(xs[1..], x)
  }

  /** `ArrayList.remove(Object)`: removes the first element equal to `x`
      and leaves the list alone when there is none. */
  function RemoveFirst<T(==)>(xs: seq<T>, x: T): (r: seq<T>)
    ensures x !in xs ==> r == xs
    ensures x in xs ==> |r| == |xs| - 1
  {
    if xs == [] then []
    else if xs[0] == x then xs[1..]
    else
      assert x in xs ==> x in xs[1..];
      [xs[0]] + RemoveFirst(xs[1..], x)
  }

  /** `remove` takes out exactly one copy of an element that is there. */
  lemma {:induction false} RemoveFirstMultiset<T>(xs: seq<T>, x: T)
    ensures multiset(RemoveFirst(xs, x)) == multiset(xs) - multiset{x}
  {
    if xs != [] {
      assert xs == [xs[0]] + xs[1..];
      if xs[0] != x {
        RemoveFirstMultiset(xs[1..], x);
      }
    }
  }

  /** What `remove` takes out is the first occurrence: the result is the
      list with exactly that slot cut out. */
  lemma {:induction false} RemoveFirstCutsFirstIndex<T>(xs: seq<T>, x: T)
    requires x in xs
    ensures RemoveFirst(xs, x) == xs[..FirstIndex(xs, x)] + xs[FirstIndex(xs, x) + 1..]
  {
    if xs[0] != x {
      var tail := xs[1..];
      RemoveFirstCutsFirstIndex(tail, x);
      var i := FirstIndex(tail, x);
      assert FirstIndex(xs, x) == i + 1;
      calc {
        RemoveFirst(xs, x);
        [xs[0]] + RemoveFirst(tail, x);
        [xs[0]] + (tail[..i] + tail[i + 1..]);
        { assert [xs[0]] + tail[..i] == xs[..i + 1]; assert tail[i + 1..] == xs[i + 2..]; }
        xs[..i + 1] + xs[i + 2..];
      }
    }
  }

  /** Removal only ever takes elements away. */
  lemma {:induction false} RemoveFirstShrinks<T>(xs: seq<T>, x: T)
    ensures forall y :: y in RemoveFirst(xs, x) ==> y in xs
  {
    if xs != [] && xs[0] != x {
      RemoveFirstShrinks(xs[1..], x);
    }
  }

  /** Removing from a list without duplicates removes every occurrence and
      keeps the list free of duplicates. */
  lemma {:induction false} RemoveFirstDistinct<T>(xs: seq<T>, x: T)
    requires Distinct(xs)
    ensures x !in RemoveFirst(xs, x)
    ensures Distinct(RemoveFirst(xs, x))
  {
    if xs != [] {
      var tail := xs[1..];
      assert Distinct(tail);
      assert xs[0] !in tail;
      if xs[0] != x {
        RemoveFirstDistinct(tail, x);
        RemoveFirstShrinks(tail, x);
        var rest := RemoveFirst(tail, x);
        assert xs[0] !in rest;
        assert RemoveFirst(xs, x) == [xs[0]] + rest;
      }
    }
  }

  /** Appending an element the list lacks keeps it free of duplicates. */
  lemma AppendFreshDistinct<T>(xs: seq<T>, x: T)
    requires Distinct(xs) && x !in xs
    ensures Distinct(xs + [x])
  {
  }

  /** Removing an element that was just appended to a list lacking it gives
      the list back. */
  lemma {:induction false} RemoveFirstUndoesAppend<T>(xs: seq<T>, x: T)
    requires x !in xs
    ensures RemoveFirst(xs + [x], x) == xs
  {
    if xs != [] {
      assert (xs + [x])[1..] == xs[1..] + [x];
      RemoveFirstUndoesAppend(xs[1..], x);
      assert [xs[0]] + xs[1..] == xs;
    }
  }
}

=== FILE: observable.dfy ===
/** The values and observers the store deals in. */
module Observable {

  /** A stored property value. The store keeps `Object`s; the tag keeps the
      boxed Java types apart, so that equality is value equality and a
      boolean accessor can tell a mismatched type from a `Boolean`. A value
      of this type is never `null`; nullable values are `Option<Value>`. */
  datatype Value = VBool(b: bool) | VInt(i: int) | VStr(s: string)

  /** An `ObservablePropertyListener`: a diagnostic name and the property id
      it binds itself to. `uid` stands for the object's identity, since the
      listener does not override `equals`. */
  datatype Listener = Listener(uid: nat, name: string, propertyId: int)

  /** One call `observer.onChange(propertyId, value)`. The value is never
      `null`, by its type. */
  datatype Notification = Notification(observer: Listener, propertyId: int, value: Value)
}

=== FILE: properties.dfy ===
/** Properties of the store that relate several calls: the invariant every
    operation keeps, registration and removal as inverses, reads after
    writes, and change suppression. */
module StoreProperties {
  import opened Wrappers
  import opened SparseKeys
  import opened Lists
  import opened Observable
  import opened PropertyManager

  /** A new manager has no observers, so it is trivially well formed. */
  lemma EmptyValid()
    ensures Valid(Empty)
  {
  }

  /** Registration files the listener under its own id and never twice,
      whichever lookup it uses. */
  lemma AddPreservesValid(lk: Lookup, s: Store, observer: Option<Listener>, default: Option<Value>)
    requires Valid(s)
    ensures Valid(AddObserver(lk, s, observer, default).store)
  {
  }

  /** Removal keeps every list bound and free of duplicates. */
  lemma RemovePreservesValid(s: Store, observer: Option<Listener>)
    requires Valid(s)
    ensures Valid(RemoveObserver(s, observer))
  {
    if observer.Some? && observer.value.propertyId in s.observers {
      var id := observer.value.propertyId;
      var xs := s.observers[id];
      RemoveFirstDistinct(xs, observer.value);
      RemoveFirstShrinks(xs, observer.value);
      var r := RemoveObserver(s, observer);
      assert Bound(r.observers[id], id);
      assert forall k :: k in r.observers && k != id ==> r.observers[k] == s.observers[k];
    }
  }

  /** Removing a listener that was just registered, into a list the lookup
      found, restores the store exactly. */
  lemma RemoveUndoesFreshAdd(lk: Lookup, s: Store, o: Listener, default: Option<Value>)
    requires Found(lk, s.observers, o.propertyId)
    requires !IsDuplicate(lk, s, o)
    ensures RemoveObserver(AddObserver(lk, s, Some(o), default).store, Some(o)) == s
  {
    var id := o.propertyId;
    RemoveFirstUndoesAppend(s.observers[id], o);
    var r := RemoveObserver(AddObserver(lk, s, Some(o), default).store, Some(o));
    assert r.observers == s.observers;
  }

  /** Registering the same listener again, once the lookup finds its list,
      changes nothing and fires no second catch-up. */
  lemma RepeatedRegistrationIsNoOp(lk: Lookup, s: Store, o: Listener, d1: Option<Value>, d2: Option<Value>)
    requires Found(lk, AddObserver(lk, s, Some(o), d1).store.observers, o.propertyId)
    ensures
      var s1 := AddObserver(lk, s, Some(o), d1).store;
      AddObserver(lk, s1, Some(o), d2) == Registration(s1, Some(o), None)
  {
  }

  /** Once removed from a well-formed store, a listener is in no list: its
      own list lost its only copy, and no other list ever held it. */
  lemma RemovedFromEveryList(s: Store, o: Listener)
    requires Valid(s)
    ensures forall k :: k in RemoveObserver(s, Some(o)).observers ==>
      o !in RemoveObserver(s, Some(o)).observers[k]
  {
    var r := RemoveObserver(s, Some(o));
    forall k | k in r.observers
      ensures o !in r.observers[k]
    {
      if k == o.propertyId {
        RemoveFirstDistinct(s.observers[k], o);
      } else {
        assert r.observers[k] == s.observers[k];
        assert Bound(s.observers[k], k);
      }
    }
  }

  /** After a successful `setValue(id, v)` every read of `id` yields `v`,
      whatever the default and whether or not anyone observes `id`; reads of
      other ids are unaffected. */
  lemma ReadAfterWrite(lk: Lookup, s: Store, id: int, v: Value)
    ensures
      var s1 := SetValue(lk, s, id, Some(v)).store;
      && (forall d :: GetValue(s1, id, d) == Some(v))
      && (forall k, d :: k != id ==> GetValue(s1, k, d) == GetValue(s, k, d))
      && s1.observers == s.observers
  {
  }

  /** A listener registered after `setValue(id, x)` is called back at once
      with `x`, whatever default it passes. */
  lemma CatchUpSeesLatestValue(lk: Lookup, s: Store, o: Listener, x: Value, default: Option<Value>)
    requires !IsDuplicate(lk, SetValue(lk, s, o.propertyId, Some(x)).store, o)
    ensures
      var s1 := SetValue(lk, s, o.propertyId, Some(x)).store;
      AddObserver(lk, s1, Some(o), default).catchUp == Some(Notification(o, o.propertyId, x))
  {
  }

  /** Change suppression: once the lookup finds the value just written, the
      same write again is a no-op that posts nothing. */
  lemma RepeatedSetIsSilent(lk: Lookup, s: Store, id: int, v: Value)
    requires Found(lk, SetValue(lk, s, id, Some(v)).store.values, id)
    ensures
      var s1 := SetValue(lk, s, id, Some(v)).store;
      SetValue(lk, s1, id, Some(v)) == SetOutcome(s1, None)
  {
  }

  /** The boolean accessor is `valueEquals(id, TRUE, FALSE)`. */
  lemma BooleanReadIsValueEquals(s: Store, id: int)
    ensures GetValueAsBoolean(s, id) == ValueEquals(s, id, Some(VBool(true)), Some(VBool(false)))
  {
  }

  /** One call to the manager. */
  datatype Call =
    | Add(observer: Option<Listener>, default: Option<Value>)
    | Remove(observer: Option<Listener>)
    | Set(id: int, value: Option<Value>)

  /** The state after one call; catch-up calls and exceptions leave no trace
      in the store. */
  function Step(lk: Lookup, s: Store, c: Call): (r: Store) {
    match c
    case Add(o, d) => AddObserver(lk, s, o, d).store
    case Remove(o) => RemoveObserver(s, o)
    case Set(id, v) => SetValue(lk, s, id, v).store
  }

  /** The state after a sequence of calls, first call first. */
  function Run(lk: Lookup, s: Store, calls: seq<Call>): (r: Store)
    decreases |calls|
  {
    if calls == [] then s else Run(lk, Step(lk, s, calls[0]), calls[1..])
  }

  /** Over any sequence of calls the store stays well formed, no property
      ever returns to unset, and the handler's queue only grows at its end. */
  lemma {:induction false} RunKeepsInvariants(lk: Lookup, s: Store, calls: seq<Call>)
    requires Valid(s)
    ensures Valid(Run(lk, s, calls))
    ensures s.values.Keys <= Run(lk, s, calls).values.Keys
    ensures |s.posted| <= |Run(lk, s, calls).posted|
    ensures Run(lk, s, calls).posted[..|s.posted|] == s.posted
    decreases |calls|
  {
    if calls != [] {
      var s1 := Step(lk, s, calls[0]);
      match calls[0] {
        case Add(o, d) => AddPreservesValid(lk, s, o, d);
        case Remove(o) => RemovePreservesValid(s, o);
        case Set(id, v) =>
      }
      RunKeepsInvariants(lk, s1, calls[1..]);
      var t := Run(lk, s1, calls[1..]);
      assert t.posted[..|s.posted|] == t.posted[..|s1.posted|][..|s.posted|];
    }
  }

  /** The listener is in no observer list. */
  ghost predicate Unlisted(s: Store, o: Listener) {
    forall k :: k in s.observers ==> o !in s.observers[k]
  }

  /** Whether a call registers `o`. */
  predicate Registers(c: Call, o: Listener) {
    c.Add? && c.observer == Some(o)
  }

  /** One call that does not register `o` posts nothing to a listener in no
      list, keeps it in no list, and only appends to the queue. */
  lemma StepSkipsUnlisted(lk: Lookup, s: Store, o: Listener, c: Call)
    requires Unlisted(s, o)
    requires !Registers(c, o)
    ensures Unlisted(Step(lk, s, c), o)
    ensures |s.posted| <= |Step(lk, s, c).posted|
    ensures Step(lk, s, c).posted[..|s.posted|] == s.posted
    ensures forall i :: |s.posted| <= i < |Step(lk, s, c).posted| ==> Step(lk, s, c).posted[i].observer != o
  {
    var s1 := Step(lk, s, c);
    match c {
      case Add(p, d) =>
        if p.Some? {
          var id := p.value.propertyId;
          forall k | k in s1.observers
            ensures o !in s1.observers[k]
          {
            if k == id && !IsDuplicate(lk, s, p.value) {
              var list := if Found(lk, s.observers, id) then s.observers[id] else [];
              assert s1.observers[k] == list + [p.value];
            }
          }
        }
      case Remove(p) =>
        if p.Some? && p.value.propertyId in s.observers {
          RemoveFirstShrinks(s.observers[p.value.propertyId], p.value);
        }
      case Set(id, value) =>
        if Notifies(lk, s, id, value) {
          assert o !in s.observers[id];
          forall i | |s.posted| <= i < |s1.posted|
            ensures s1.posted[i].observer != o
          {
            assert s1.posted[i].observer == s.observers[id][i - |s.posted|];
          }
        }
    }
  }

  /** Calls that never register `o` never post a call to it while it is in
      no list, and leave it in no list; the queue only grows at its end. */
  lemma {:induction false} CallsSkipUnlisted(lk: Lookup, s: Store, o: Listener, calls: seq<Call>)
    requires Unlisted(s, o)
    requires forall c :: c in calls ==> !Registers(c, o)
    ensures |s.posted| <= |Run(lk, s, calls).posted|
    ensures Run(lk, s, calls).posted[..|s.posted|] == s.posted
    ensures forall i :: |s.posted| <= i < |Run(lk, s, calls).posted| ==> Run(lk, s, calls).posted[i].observer != o
    ensures Unlisted(Run(lk, s, calls), o)
    decreases |calls|
  {
    if calls != [] {
      var s1 := Step(lk, s, calls[0]);
      assert calls[0] in calls;
      StepSkipsUnlisted(lk, s, o, calls[0]);
      assert forall c :: c in calls[1..] ==> c in calls;
      CallsSkipUnlisted(lk, s1, o, calls[1..]);
      var t := Run(lk, s1, calls[1..]);
      assert t.posted[..|s.posted|] == t.posted[..|s1.posted|][..|s.posted|];
      forall i | |s.posted| <= i < |t.posted|
        ensures t.posted[i].observer != o
      {
        if i < |s1.posted| {
          assert t.posted[i] == t.posted[..|s1.posted|][i];
        }
      }
    }
  }

  /** Once a listener of a well-formed store is removed, no later sequence
      of calls that does not register it again, whatever other listeners it
      adds or removes, has a `setValue` post a call to it. */
  lemma RemovalStopsNotifications(lk: Lookup, s: Store, o: Listener, calls: seq<Call>)
    requires Valid(s)
    requires forall c :: c in calls ==> !Registers(c, o)
    ensures
      var t := Run(lk, RemoveObserver(s, Some(o)), calls);
      forall i :: |s.posted| <= i < |t.posted| ==> t.posted[i].observer != o
  {
    RemovedFromEveryList(s, o);
    CallsSkipUnlisted(lk, RemoveObserver(s, Some(o)), o, calls);
  }
}

=== FILE: property_manager.dfy ===
/** `ObservablePropertyManager`: a map from property id to value, a map from
    property id to the ordered list of observers bound to it, and a
    main-thread handler to which every change is posted, one runnable per
    observer.

    The handler is modelled as the FIFO `posted` of the `onChange` calls it
    has been handed; running them is left to the host and has no effect on
    the store. The synchronous catch-up call made while registering is
    returned to the caller instead. Every operation that looks a key up with
    `indexOfKey` takes the `Lookup` saying which test it applies. */
module PropertyManager {
  import opened Wrappers
  import opened SparseKeys
  import opened Lists
  import opened Observable

  /** `mapOfFieldValues`, `mapOfFieldObservers`, and the `onChange` calls
      posted to the main-thread handler, oldest first. */
  datatype Store = Store(
    values: map<int, Value>,
    observers: map<int, seq<Listener>>,
    posted: seq<Notification>)

  /** A freshly constructed manager. */
  const Empty: Store := Store(map[], map[], [])

  /** The one exception the store lets escape. */
  datatype Error = IllegalArgument

  /** The state after `setValue`, and what it threw. */
  datatype SetOutcome = SetOutcome(store: Store, thrown: Option<Error>)

  /** The state after `addPropertyChangeObserver`, the listener it returns,
      and the synchronous catch-up call it made, if any. */
  datatype Registration = Registration(
    store: Store,
    returned: Option<Listener>,
    catchUp: Option<Notification>)

  /** Every listener in a list is bound to the list's property id. */
  predicate Bound(xs: seq<Listener>, id: int) {
    forall l :: l in xs ==> l.propertyId == id
  }

  /** Each observer list holds only listeners bound to its id, each at most
      once. Registration files a listener under its own id and refuses a
      second copy, so this holds of every reachable store. */
  ghost predicate Valid(s: Store) {
    forall id :: id in s.observers ==> Distinct(s.observers[id]) && Bound(s.observers[id], id)
  }

  /** Registration finds `o` already in the list it retained for `o`'s id. */
  predicate IsDuplicate(lk: Lookup, s: Store, o: Listener) {
    Found(lk, s.observers, o.propertyId) && o in s.observers[o.propertyId]
  }

  /** `getValue`: the stored value, or `default` when the id is unset. A
      stored value is never `null`, so the `null` test of the source is a
      membership test. */
  function GetValue(s: Store, id: int, default: Option<Value>): (r: Option<Value>)
    ensures r.None? <==> id !in s.values && default.None?
    ensures id in s.values ==> r == Some(s.values[id])
    ensures id !in s.values ==> r == default
  {
    if id in s.values then Some(s.values[id]) else default
  }

  /** `getValueAsBoolean`: the value read with default `false`, cast to
      `Boolean`; a value of another type makes the cast throw, and the
      exception is turned into `false`. */
  function GetValueAsBoolean(s: Store, id: int): (r: bool)
    ensures r <==> id in s.values && s.values[id] == VBool(true)
    ensures id !in s.values ==> !r
  {
    match GetValue(s, id, Some(VBool(false)))
    case Some(VBool(b)) => b
    case _ => false
  }

  /** `valueEquals`: the effective value's `equals(compareTo)`. A `null`
      effective value makes the call throw, which yields `false`; `equals`
      of `null` is `false` too. */
  function ValueEquals(s: Store, id: int, compareTo: Option<Value>, default: Option<Value>): (r: bool)
    ensures GetValue(s, id, default).None? ==> !r
    ensures compareTo.None? ==> !r
    ensures id in s.values ==> (r <==> compareTo == Some(s.values[id]))
    ensures id !in s.values ==> (r <==> default.Some? && compareTo == default)
  {
    match GetValue(s, id, default)
    case None => false
    case Some(v) => compareTo == Some(v)
  }

  /** `addPropertyChangeObserver`. */
  function AddObserver(lk: Lookup, s: Store, observer: Option<Listener>, default: Option<Value>): (r: Registration)
    ensures r.returned == observer
    ensures r.store.values == s.values && r.store.posted == s.posted
    ensures observer.None? ==> r.store == s && r.catchUp.None?
    ensures observer.Some? && IsDuplicate(lk, s, observer.value) ==>
      r.store == s && r.catchUp.None?
    ensures observer.Some? && Found(lk, s.observers, observer.value.propertyId)
              && !IsDuplicate(lk, s, observer.value) ==>
      var id := observer.value.propertyId;
      r.store.observers == s.observers[id := s.observers[id] + [observer.value]]
    ensures observer.Some? && !Found(lk, s.observers, observer.value.propertyId) ==>
      r.store.observers == s.observers[observer.value.propertyId := [observer.value]]
    ensures r.catchUp.Some? <==>
      && observer.Some?
      && !IsDuplicate(lk, s, observer.value)
      && GetValue(s, observer.value.propertyId, default).Some?
    ensures r.catchUp.Some? ==>
      r.catchUp.value == Notification(
        observer.value, observer.value.propertyId,
        GetValue(s, observer.value.propertyId, default).value)
  {
    match observer
    case None => Registration(s, observer, None)
    case Some(o) =>
      var id := o.propertyId;
      var list := if Found(lk, s.observers, id) then s.observers[id] else [];
      if o in list then Registration(s, observer, None)
      else
        assert [] + [o] == [o];
        var s' := s.(observers := s.observers[id := list + [o]]);
        var catchUp :=
          match GetValue(s', id, default)
          case Some(x) => Some(Notification(o, id, x))
          case None => None;
        Registration(s', observer, catchUp)
  }

  /** `removePropertyChangeObserver`: drops the first occurrence of the
      listener from the list of the id it is bound to. */
  function RemoveObserver(s: Store, observer: Option<Listener>): (r: Store)
    ensures r.values == s.values && r.posted == s.posted
    ensures observer.None? ==> r == s
    ensures observer.Some? && observer.value.propertyId !in s.observers ==> r == s
    ensures observer.Some? ==> r.observers.Keys == s.observers.Keys
    ensures observer.Some? ==>
      var id := observer.value.propertyId;
      forall k :: k in s.observers ==>
        r.observers[k] == if k == id then RemoveFirst(s.observers[k], observer.value) else s.observers[k]
  {
    match observer
    case None => s
    case Some(o) =>
      var id := o.propertyId;
      if id in s.observers then
        s.(observers := s.observers[id := RemoveFirst(s.observers[id], o)])
      else s
  }

  /** The `onChange` calls one round of notification posts: one per entry of
      the list, in list order, all carrying the same id and value. */
  function Notifications(obs: seq<Listener>, id: int, v: Value): (r: seq<Notification>)
    ensures |r| == |obs|
    ensures forall i :: 0 <= i < |obs| ==> r[i] == Notification(obs[i], id, v)
  {
    if obs == [] then [] else [Notification(obs[0], id, v)] + Notifications(obs[1..], id, v)
  }

  /** `setValue`'s equality check succeeds: the lookup finds a stored value
      for `id` and it equals `v`. */
  predicate Suppressed(lk: Lookup, s: Store, id: int, v: Value) {
    Found(lk, s.values, id) && s.values[id] == v
  }

  /** `setValue` notifies: the value is non-null, the equality check did not
      return early, and the lookup finds a list of observers for `id`. */
  predicate Notifies(lk: Lookup, s: Store, id: int, value: Option<Value>) {
    value.Some? && !Suppressed(lk, s, id, value.value) && Found(lk, s.observers, id)
  }

  /** `setValue`. */
  function SetValue(lk: Lookup, s: Store, id: int, value: Option<Value>): (r: SetOutcome)
    ensures value.None? ==> r.store == s && r.thrown == Some(IllegalArgument)
    ensures value.Some? ==> r.thrown.None?
    ensures value.Some? && Suppressed(lk, s, id, value.value) ==> r.store == s
    ensures value.Some? ==> r.store.values == s.values[id := value.value]
    ensures r.store.observers == s.observers
    ensures |s.posted| <= |r.store.posted| && r.store.posted[..|s.posted|] == s.posted
    ensures !Notifies(lk, s, id, value) ==> r.store.posted == s.posted
    ensures Notifies(lk, s, id, value) ==>
      var obs := s.observers[id];
      && |r.store.posted| == |s.posted| + |obs|
      && forall i :: 0 <= i < |obs| ==>
           r.store.posted[|s.posted| + i] == Notification(obs[i], id, value.value)
  {
    match value
    case None => SetOutcome(s, Some(IllegalArgument))
    case Some(v) =>
      if Suppressed(lk, s, id, v) then SetOutcome(s, None)
      else
        var values := s.values[id := v];
        var posted :=
          if Found(lk, s.observers, id) then s.posted + Notifications(s.observers[id], id, v)
          else s.posted;
        SetOutcome(Store(values, s.observers, posted), None)
  }
}

=== FILE: sparse_keys.dfy ===
/** How the store asks an Android `SparseArray` whether it holds a key.

    A `SparseArray` keeps its keys in a sorted array; `indexOfKey(k)` answers
    with the slot of `k` when it is there, and with the one's complement of
    the slot where it would be inserted otherwise. The store tests the answer
    with `> 0` where `>= 0` was evidently meant, so the smallest key of the
    map is never "found". Every operation of the store takes a `Lookup` that
    says which of the two tests it uses. */
module SparseKeys {

  /** The keys of `m` strictly below `k`: their number is the slot `k`
      occupies, or would occupy, in the sorted key array. */
  function KeysBelow<V>(m: map<int, V>, k: int): (below: set<int>) {
    set j | j in m.Keys && j < k
  }

  /** A subset is no larger than its superset. */
  lemma SubsetSize(a: set<int>, b: set<int>)
    requires a <= b
    ensures |a| <= |b|
  {
    assert b == a + (b - a);
    assert a * (b - a) == {};
  }

  /** There are no more keys below `k` than keys other than `k`. */
  lemma KeysBelowSize<V>(m: map<int, V>, k: int)
    ensures |KeysBelow(m, k)| <= |m.Keys| - (if k in m then 1 else 0)
  {
    var others := m.Keys - {k};
    SubsetSize(KeysBelow(m, k), others);
    assert |others| == |m.Keys| - (if k in m then 1 else 0);
  }

  /** `SparseArray.indexOfKey`: the slot of `k` when present, otherwise
      `~slot` (that is, `-slot - 1`). A slot lies within the key array, and
      an insertion point at most one past its end. */
  function IndexOfKey<V>(m: map<int, V>, k: int): (r: int)
    ensures k in m ==> 0 <= r < |m|
    ensures k !in m ==> r < 0 && -r - 1 <= |m|
  {
    KeysBelowSize(m, k);
    if k in m then |KeysBelow(m, k)| else -|KeysBelow(m, k)| - 1
  }

  /** A smaller key is stored exactly when the slot of `k`, the number of
      keys below it, is not 0. */
  lemma SmallerKeyIsSlot<V>(m: map<int, V>, k: int)
    ensures (exists j | j in m.Keys :: j < k) <==> |KeysBelow(m, k)| > 0
  {
    var below := KeysBelow(m, k);
    if exists j | j in m.Keys :: j < k {
      var j :| j in m.Keys && j < k;
      assert j in below;
    }
    if |below| > 0 {
      var j :| j in below;
      assert j in m.Keys && j < k;
    }
  }

  /** What `indexOfKey(k) > 0` actually tests: `k` is stored and some
      smaller key is stored too. */
  predicate Present<V>(m: map<int, V>, k: int): (r: bool)
    ensures r <==> IndexOfKey(m, k) > 0
  {
    SmallerKeyIsSlot(m, k);
    k in m && exists j | j in m.Keys :: j < k
  }

  /** `AsWritten` is the store's `indexOfKey(k) > 0`; `Intended` is the
      test `indexOfKey(k) >= 0` that the surrounding comments describe. */
  datatype Lookup = AsWritten | Intended

  /** Whether a lookup of the given kind treats `k` as found in `m`: each
      kind is exactly the sign test on `indexOfKey` it stands for. */
  predicate Found<V>(lk: Lookup, m: map<int, V>, k: int): (r: bool)
    ensures r <==> (if lk == AsWritten then IndexOfKey(m, k) > 0 else IndexOfKey(m, k) >= 0)
  {
    match lk
    case AsWritten => Present(m, k)
    case Intended => k in m
  }

  /** The as-written test misses a stored key exactly when it is the
      smallest key of the map. */
  lemma AsWrittenMissesOnlySmallest<V>(m: map<int, V>, k: int)
    requires k in m
    ensures !Found(AsWritten, m, k) <==> forall j :: j in m ==> k <= j
  {
  }
}

=== FILE: wrappers.dfy ===
/** Java's nullable references, modelled as an explicit optional value. */
module Wrappers {

  /** `None` stands for Java `null`. */
  datatype Option<+T> = None | Some(value: T)
}
